=== FILE: README.md ===
# tokio-postgres extended-query execution, modelled in Dafny

This project models the extended-query execution path of the asynchronous
PostgreSQL client tokio-postgres. The path follows the "Message Flow → Extended
Query" part of the PostgreSQL Frontend/Backend Protocol, version 3.
Every asynchronous consumer of server replies becomes a pure step function,
a fold, or a loop over a finite `seq<Backend>` of replies. Every request the
client builds becomes an abstract `Frontend` message. The model covers:

- the parameter binder (`encode_bind_with_statement_name_and_param_types`,
  `encode_bind`, `encode`): the count check, the per-parameter format list,
  in-order conversion that stops at the first failure, and the error kinds;
- the ad-hoc reply state machine (`QueryProcessingState::process_message`,
  `form_final`) and the reply loop of `query_with_param_types`;
- the prepared-statement entry points `start`, `query`, `execute` (its
  row-count fold) and `query_portal`;
- `RowStream::poll_next` and `rows_affected`, plus a full drain as a caller
  that collects every row would do it;
- `extract_row_affected`, the command-tag row-count parser, with Rust's
  `u64::from_str` written out;
- `Column::new`, `Statement::new`, `Statement::unnamed`, and the teardown of a
  shared statement. Teardown is a reference count over clone/drop events plus
  a flag saying whether the connection can still be reached. When the count
  reaches zero, the batch Close('S', name), Sync is sent.

Modules: `Base` (fixed-width integers, `Option`, `Result`, the error kinds),
`Messages` (backend and frontend messages), `Statements`, `RowCount`,
`Binding`, `Rows`, `AdHoc`, `Entry`.

Collaborators the source calls but does not define are parameters:

- the catalog lookup `get_type` is a `Catalog`;
- `Row::new` is a `RowDecoder`;
- `encode_format` and `to_sql_checked` are a `ParamCodec`;
- the protocol crate's framing check is a `frameable` predicate. A message that
  fails it is an encode error, except Parse, whose failure is a parse error,
  as in the source.

`client.send` appends the batch to the connection's outbox, or refuses it with
a closed-connection error when the request channel no longer accepts batches.
The reply channel is the sequence of replies. Reading past its end is a
closed-connection error.

Column accessors and statement accessors (`name`, `params`, `columns`) are
the datatypes' destructors, and they return the stored fields unchanged by
construction. `name` and `type_` keep their names. `column_id` and
`table_oid` are named `columnId` and `tableOid`.

Where the source is inconsistent with itself:

- query.rs:110-115 builds a `Column` with a field `r#type`, while statement.rs
  names it `type_`. The model follows statement.rs and builds columns through
  `NewColumn`. That function gives the same results as the literal in
  query.rs: a 0 table oid or column id becomes `None`.
- query.rs:167 calls `Statement::unnamed`, which statement.rs does not define.
  It is modelled as `Unnamed`: a statement named `""` with the given parameter
  types and columns.

Two points about the code's behaviour:

- `poll_next` does not mark the stream finished after a failed pull
  (tokio-postgres/src/query.rs:355-370). A later pull reads on from the next
  reply, and `PollNext` does the same. `Drain` stops at the first failure, like
  a caller collecting rows.
- `start`, `execute` and `poll_next` send every message they do not match to
  `unexpected_message` (tokio-postgres/src/query.rs:242, 252, 367), and
  ErrorResponse is one of those messages. Whether the reply channel turns
  ErrorResponse into an error first is not visible in these files. So on those
  paths an ErrorResponse here is a protocol violation (`UnexpectedMessage`).
  The ad-hoc state machine does match ErrorResponse and yields `Db(body)`.

## Model

| member | source | states |
|---|---|---|
| Statements.NewColumn | tokio-postgres/src/statement.rs:77-92 | name and type are kept; column_id is None exactly when the reported id is 0, otherwise it is that id (negative ids stay Some); table_oid is None exactly when the oid is 0 |
| Statements.NewStatement | tokio-postgres/src/statement.rs:38-65 | a new statement has one handle, and its name, parameter types and columns are exactly the values passed in |
| Statements.Unnamed | tokio-postgres/src/query.rs:167 | the throwaway statement of the ad-hoc path has the empty name and exactly the given types and columns |
| Statements.DropInner | tokio-postgres/src/statement.rs:18-28 | if the connection is reachable and accepting, exactly one batch Close('S', name), Sync is added to its outbox; otherwise nothing is sent; the result is never an error, whatever the send outcome |
| Statements.RunClosesOnceAtRelease | tokio-postgres/src/statement.rs:18-35 | over any valid clone/drop/connection-gone trace, the close batch is sent once, exactly when the last handle is dropped while the connection is still reachable and accepting; nothing is sent while any handle survives or once the connection is gone |
| Statements.RunFlags | tokio-postgres/src/statement.rs:18-35 | clone/drop/connection-gone events never change whether the connection accepts messages, and the connection is reachable afterwards exactly when it was before and no connection-gone event occurred |
| RowCount.LastToken | tokio-postgres/src/query.rs:202-204 | the result is the suffix of the tag after its last space (the whole tag if it has none): it contains no space, and what precedes it is empty or ends in a space |
| RowCount.ExtractRowsAffected | tokio-postgres/src/query.rs:198-208 | errors (as a parse error) exactly when the tag cannot be read; otherwise the value of the last token whenever it parses as a u64 ("+5" and "007" included), and 0 when it does not |
| RowCount.TrailingCountIsReported | tokio-postgres/src/query.rs:198-208 | for any prefix and any u64 n, the tag `prefix + " " + decimal(n)` reports n |
| RowCount.BareCountIsReported | tokio-postgres/src/query.rs:202-206 | a tag that is only a decimal count (no space) reports that count |
| RowCount.OverflowingCountIsZero | tokio-postgres/src/query.rs:205-206 | a trailing count of 2^64 or more does not parse as u64 and is reported as 0, not as an error |
| RowCount.InsertTagExample | tokio-postgres/src/query.rs:198-208 | "INSERT 0 3" reports 3 |
| RowCount.UpdateTagExample | tokio-postgres/src/query.rs:198-208 | "UPDATE 5" reports 5 |
| RowCount.EmptyTagExample | tokio-postgres/src/query.rs:198-208 | "" reports 0 |
| RowCount.WordTagExample | tokio-postgres/src/query.rs:198-208 | "SELECT" reports 0 |
| Binding.ConvertAll | tokio-postgres/src/query.rs:315-333 | values are converted in order; on success there is one cell per parameter, matching its conversion; on failure the reported index is the first failing position, with its error, and every earlier value converted |
| Binding.ConversionStopsAtFailure | tokio-postgres/src/query.rs:317-333 | a failure at index i depends only on the first i+1 values and types, so no later value's conversion matters |
| Binding.EncodeBind | tokio-postgres/src/query.rs:292-339 | a count mismatch fails with Parameters(given, declared) and is the only source of that error; a conversion failure is ToSql(e, i) at the first failing index, and some failing index always gives it; with matching counts and every value converted, the result is an error exactly when the Bind cannot be framed; on success the Bind carries the portal and statement names, one format per parameter in order, one cell per parameter, and result format [1]; the only other error is an encode error |
| Binding.EncodeBindStatement | tokio-postgres/src/query.rs:272-290 | binds the statement's own name and declared types: a count mismatch is Parameters(given, declared); a conversion failure against the declared types is ToSql(e, i) at the first failing index, and any failing index gives it; Parameters arises only on a count mismatch; with matching counts and every value converted, the result is an error exactly when that Bind cannot be framed; on success the Bind carries one format and one cell per parameter, computed from its declared type, and result format [1]; the only other error is an encode error |
| Binding.EncodeExecution | tokio-postgres/src/query.rs:258-270 | the batch is exactly the statement's Bind, Execute("", 0), Sync; a bind failure is returned unchanged; after a successful bind the batch is built exactly when Execute frames, and otherwise the error is an encode error |
| AdHoc.ResolveColumns | tokio-postgres/src/query.rs:105-118 | one column per field in field order, each built by Column::new from the field and its resolved type; fails with the first unresolvable type's error, or with a parse error for an unreadable field after the readable ones |
| AdHoc.FormFinal | tokio-postgres/src/query.rs:101-121 | NoData gives Final with no columns; a row description gives Final with exactly its resolved columns, or the resolution error |
| AdHoc.ProcessMessage | tokio-postgres/src/query.rs:74-99 | an accepted reply is the one the transition table expects and moves exactly one stage along Empty, ParseCompleted, BindCompleted, ParameterDescribed, Final; ErrorResponse outside the table is Db(body); every other pairing is UnexpectedMessage |
| AdHoc.ProcessReplies | tokio-postgres/src/query.rs:158-173 | succeeds exactly on ParseComplete, BindComplete, ParameterDescription, then RowDescription or NoData whose columns resolve; it leaves all later replies unread; the first out-of-order reply gives Db or UnexpectedMessage; running out of replies gives Closed |
| AdHoc.EncodeAdHoc | tokio-postgres/src/query.rs:134-154 | the batch is Parse("", query, type oids in order), the Bind of the values against their own types, Describe('S', ""), Execute("", 0), Sync; an unframeable Parse is a parse error; after a framed Parse a Bind failure (ToSql(e, i) or an encode error) is returned unchanged; a successful Bind gives the batch exactly when Describe and Execute frame, else an encode error; a count mismatch cannot occur |
| AdHoc.QueryWithParamTypes | tokio-postgres/src/query.rs:124-174 | an encoding failure sends nothing; otherwise exactly the encoded batch is sent, and a closed request channel gives Closed; once sent, the prescribed four-reply exchange succeeds exactly when its description resolves (else the resolution error), the first out-of-order reply gives Db or UnexpectedMessage, and too few replies give Closed; success yields a stream over the unnamed statement with no parameter types, the described columns, the replies after the description, and no count |
| Rows.PollNext | tokio-postgres/src/query.rs:355-370 | a pull keeps the stream's statement and consumes at least one reply when any is left |
| Rows.PollNextReadsToPending | tokio-postgres/src/query.rs:357-369 | a pull consumes the skipped replies (readable CommandComplete, EmptyQueryResponse, PortalSuspended) and the first other reply; that reply's outcome is a row for DataRow, the end for ReadyForQuery, and a failure otherwise; the recorded count is the last completion passed; with no replies left it fails as closed |
| Rows.RowsAffectedUnsetUntilCompletion | tokio-postgres/src/query.rs:373-379 | starting unset, rows_affected stays None across a pull exactly when the pull read no CommandComplete |
| Rows.DrainStopsAtFirstTerminal | tokio-postgres/src/query.rs:352-370 | draining `body + [m] + tail` yields exactly the decoded DataRows of body in order, ends with m's outcome, leaves tail unread, and records the last count body reported |
| Rows.TwoRowSelectExample | tokio-postgres/src/query.rs:355-379 | DataRow, DataRow, CommandComplete "SELECT 2", ReadyForQuery: two rows with the count still unset, then the end with count 2 |
| Rows.SuspendedPortalExample | tokio-postgres/src/query.rs:365 | DataRow, PortalSuspended, ReadyForQuery: one row, then the end, with no count set |
| Rows.ErrorBeforeReadyExample | tokio-postgres/src/query.rs:367 | an ErrorResponse after one row ends the drain with a failure after that row, leaving the ReadyForQuery unread |
| Entry.Start | tokio-postgres/src/query.rs:247-256 | succeeds exactly when the first reply is BindComplete and returns the remaining replies; any other first reply is UnexpectedMessage; no reply is Closed |
| Entry.Query | tokio-postgres/src/query.rs:34-62 | a binding failure, a Parameters mismatch included, is returned with nothing sent; otherwise the batch is sent, and a refused send is Closed; after sending, success holds exactly when the first reply is BindComplete, and gives a stream over the statement and the later replies with no count; any other first reply is UnexpectedMessage, and no reply is Closed |
| Entry.ExecuteReplies | tokio-postgres/src/query.rs:233-244 | the first reply that is not a DataRow, readable CommandComplete or EmptyQueryResponse decides the result: ReadyForQuery returns the count the earlier replies settled on (last completion wins, an empty query resets to 0, none gives 0), an unreadable tag is a parse error, anything else is UnexpectedMessage, and no such reply is Closed |
| Entry.ExecuteStatement | tokio-postgres/src/query.rs:210-245 | a binding failure sends nothing; a refused send or an empty reply sequence is Closed; a first reply other than BindComplete is UnexpectedMessage; after a leading BindComplete the first reply the loop does not read past decides: ReadyForQuery gives the settled count, an unreadable CommandComplete gives ParseError, anything else gives UnexpectedMessage, and running out of replies gives Closed |
| Entry.QueryPortal | tokio-postgres/src/query.rs:176-195 | sends Execute(portal name, row limit), Sync; a refused send is Closed; otherwise it returns a stream over all replies, with no BindComplete awaited, using the portal's statement and no count; an unframeable Execute is an encode error with nothing sent |

## Left out

- Async machinery (`Pin`, `Poll`, `PhantomPinned`, the `Responses` channel, wakers): replies are a finite sequence. Reading past its end is modelled as a closed-connection error. No claim is made that the channel turns ErrorResponse into an error.
- Logging and debug formatting (tokio-postgres/src/query.rs:21-32, 44-54, 220-230; tokio-postgres/src/statement.rs:115-122): diagnostics only.
- Byte-level encoding in the protocol crate's `frontend` module (parse, bind, describe, execute, sync, close) is not part of this model. Messages are abstract constructors, and the crate's framing check is the uninterpreted predicate `frameable`.
- Binding.EncodeBind: assumes the protocol crate converts values in order and stops at the first conversion failure. It checks framing only after every value converted, so an encode error that the real crate raises before conversion (for example, a name with an embedded NUL) comes after conversion errors here.
- `get_type`, `Type::oid`, `encode_format`, `to_sql_checked` and `Row::new` are collaborators whose code is not part of this model. They are the uninterpreted parameters `Catalog`, the `oid` field of `PgType`, `ParamCodec` and `RowDecoder`.
- `Arc`/`Weak` memory semantics beyond a reference count and a "connection reachable" flag.
- The panic `frontend::close(...).unwrap()` could raise (tokio-postgres/src/statement.rs:22): the close message is always built.
- The `with_buf` buffer plumbing and the connection's transport: `Send` only records the batch, or refuses it when the request channel is closed.
- Concurrency across requests on one connection: each model call sees only the replies to its own batch.

## Findings

None. The two places where the source disagrees with itself (`Statement::unnamed`, `r#type`) are described above. They are inconsistencies between files, not behaviour that can be shown wrong on an input.

=== FILE: adhoc.dfy ===
/**
 The ad-hoc query path (query_with_param_types): Parse, Bind, Describe,
 Execute and Sync are sent as one batch, and the first replies are checked
 by a strictly linear state machine that ends with the result columns.
 */
module AdHoc {
  import opened Base
  import opened Messages
  import opened Statements
  import opened Binding
  import opened Rows

  /** QueryProcessingState. */
  datatype QueryState = Empty | ParseCompleted | BindCompleted | ParameterDescribed | Final(columns: seq<Column>)

  /** get_type, left uninterpreted: resolves a wire type identifier through the catalog. */
  type Catalog = u32 -> Result<PgType>

  /** How far along the linear chain a state is. */
  function Stage(s: QueryState): nat {
    match s
    case Empty => 0
    case ParseCompleted => 1
    case BindCompleted => 2
    case ParameterDescribed => 3
    case Final(_) => 4
  }

  /**
   The columns of a row description, one per field in field order; the
   first field whose type cannot be resolved, or an unreadable field after
   the readable ones, fails the whole description.
   */
  function ResolveColumns(fields: seq<Field>, malformedTail: bool, resolve: Catalog): (r: Result<seq<Column>>)
    ensures r.Ok? ==>
      && !malformedTail
      && |r.value| == |fields|
      && forall i :: 0 <= i < |fields| ==>
           && resolve(fields[i].typeOid).Ok?
           && r.value[i] == NewColumn(fields[i].name, resolve(fields[i].typeOid).value, fields[i].columnId, fields[i].tableOid)
    ensures (forall i :: 0 <= i < |fields| ==> resolve(fields[i].typeOid).Ok?) && !malformedTail ==> r.Ok?
    ensures r.Err? ==>
      || (exists i :: 0 <= i < |fields| && resolve(fields[i].typeOid) == Err(r.error)
                      && forall j :: 0 <= j < i ==> resolve(fields[j].typeOid).Ok?)
      || (malformedTail && r.error == ParseError && forall i :: 0 <= i < |fields| ==> resolve(fields[i].typeOid).Ok?)
    decreases |fields|
  {
    if |fields| == 0 then
      if malformedTail then Err(ParseError) else Ok([])
    else
      var f := fields[0];
      var type_ :- resolve(f.typeOid);
      var rest :- ResolveColumns(fields[1..], malformedTail, resolve);
      Ok([NewColumn(f.name, type_, f.columnId, f.tableOid)] + rest)
  }

  /** The row description a describing reply carries: none for NoData. */
  function DescriptionOf(m: Backend): Option<RowDescriptionBody> {
    if m.RowDescription? then Some(m.description) else None
  }

  /** form_final: the final state, holding the described columns (none for NoData). */
  function FormFinal(description: Option<RowDescriptionBody>, resolve: Catalog): (r: Result<QueryState>)
    ensures r.Ok? ==> r.value.Final?
    ensures description.None? ==> r == Ok(Final([]))
    ensures description.Some? ==>
      var cols := ResolveColumns(description.value.fields, description.value.malformedTail, resolve);
      && (r.Ok? <==> cols.Ok?)
      && (r.Ok? ==> r.value.columns == cols.value)
      && (r.Err? ==> r.error == cols.error)
  {
    match description
    case None => Ok(Final([]))
    case Some(d) =>
      var columns :- ResolveColumns(d.fields, d.malformedTail, resolve);
      Ok(Final(columns))
  }

  /** The transition table: the one kind of reply each state accepts. */
  predicate Expects(s: QueryState, m: Backend) {
    match s
    case Empty => m.ParseComplete?
    case ParseCompleted => m.BindComplete?
    case BindCompleted => m.ParameterDescription?
    case ParameterDescribed => m.RowDescription? || m.NoData?
    case Final(_) => false
  }

  /**
   QueryProcessingState::process_message: an accepted reply moves exactly
   one step along the chain; an ErrorResponse fails with the server's
   error and every other pairing is a protocol violation.
   */
  function ProcessMessage(s: QueryState, m: Backend, resolve: Catalog): (r: Result<QueryState>)
    ensures r.Ok? ==> Expects(s, m) && Stage(r.value) == Stage(s) + 1
    ensures Expects(s, m) && Stage(s) < 3 ==> r.Ok?
    ensures Expects(s, m) && s == ParameterDescribed ==> r == FormFinal(DescriptionOf(m), resolve)
    ensures !Expects(s, m) ==> r == Err(if m.ErrorResponse? then Db(m.error) else UnexpectedMessage)
  {
    match (s, m)
    case (Empty, ParseComplete) => Ok(ParseCompleted)
    case (ParseCompleted, BindComplete) => Ok(BindCompleted)
    case (BindCompleted, ParameterDescription(_)) => Ok(ParameterDescribed)
    case (ParameterDescribed, RowDescription(d)) => FormFinal(Some(d), resolve)
    case (ParameterDescribed, NoData) => FormFinal(None, resolve)
    case (_, ErrorResponse(body)) => Err(Db(body))
    case _ => Err(UnexpectedMessage)
  }

  /**
   The reply the protocol prescribes at position k of the ad-hoc exchange:
   ParseComplete, BindComplete, ParameterDescription, then RowDescription
   or NoData.
   */
  predicate HandshakeReply(k: nat, m: Backend) {
    || (k == 0 && m.ParseComplete?)
    || (k == 1 && m.BindComplete?)
    || (k == 2 && m.ParameterDescription?)
    || (k == 3 && (m.RowDescription? || m.NoData?))
  }

  const HANDSHAKE_LEN: nat := 4

  /** The state table agrees with the prescribed reply order, position by position. */
  lemma ExpectsIsHandshake(s: QueryState, m: Backend)
    requires !s.Final?
    ensures Expects(s, m) <==> HandshakeReply(Stage(s), m)
  {
  }

  /** The columns the exchange described and the replies left for the row stream. */
  datatype Described = Described(columns: seq<Column>, rest: seq<Backend>)

  /**
   The reply loop of query_with_param_types: feeds replies to the state
   machine until it is final and leaves every later reply unread.
   */
  method ProcessReplies(replies: seq<Backend>, resolve: Catalog) returns (r: Result<Described>)
    // Success exactly on the prescribed four replies with a resolvable description.
    ensures r.Ok? ==>
      && |replies| >= HANDSHAKE_LEN
      && (forall k :: 0 <= k < HANDSHAKE_LEN ==> HandshakeReply(k, replies[k]))
      && r.value.rest == replies[HANDSHAKE_LEN..]
      && FormFinal(DescriptionOf(replies[3]), resolve) == Ok(Final(r.value.columns))
    ensures |replies| >= HANDSHAKE_LEN && (forall k :: 0 <= k < HANDSHAKE_LEN ==> HandshakeReply(k, replies[k])) ==>
      (r.Ok? <==> FormFinal(DescriptionOf(replies[3]), resolve).Ok?) &&
      (r.Err? ==> r.error == FormFinal(DescriptionOf(replies[3]), resolve).error)
    // The first out-of-order reply decides the error.
    ensures forall k :: 0 <= k < HANDSHAKE_LEN && k < |replies| && !HandshakeReply(k, replies[k]) &&
                        (forall j :: 0 <= j < k ==> HandshakeReply(j, replies[j])) ==>
      r == Err(if replies[k].ErrorResponse? then Db(replies[k].error) else UnexpectedMessage)
    // Running out of replies before the end of the exchange is a closed connection.
    ensures |replies| < HANDSHAKE_LEN && (forall k :: 0 <= k < |replies| ==> HandshakeReply(k, replies[k])) ==>
      r == Err(Closed)
  {
    var state := Empty;
    var i := 0;
    while i < |replies|
      invariant i <= |replies| && i < HANDSHAKE_LEN
      invariant !state.Final? && Stage(state) == i
      invariant forall j :: 0 <= j < i ==> HandshakeReply(j, replies[j])
      decreases |replies| - i
    {
      ExpectsIsHandshake(state, replies[i]);
      var next := ProcessMessage(state, replies[i], resolve);
      if next.Err? {
        return Err(next.error);
      }
      state := next.value;
      i := i + 1;
      if state.Final? {
        return Ok(Described(state.columns, replies[i..]));
      }
    }
    return Err(Closed);
  }

  /** The values of the caller's (value, type) pairs, in order. */
  function ParamValues<V>(params: seq<(V, PgType)>): (vs: seq<V>)
    ensures |vs| == |params| && forall i :: 0 <= i < |params| ==> vs[i] == params[i].0
  {
    seq(|params|, i requires 0 <= i < |params| => params[i].0)
  }

  /** The declared types of the caller's (value, type) pairs, in order. */
  function ParamTypes<V>(params: seq<(V, PgType)>): (ts: seq<PgType>)
    ensures |ts| == |params| && forall i :: 0 <= i < |params| ==> ts[i] == params[i].1
  {
    seq(|params|, i requires 0 <= i < |params| => params[i].1)
  }

  /** The wire identifiers of the declared types, in order. */
  function Oids(types: seq<PgType>): (oids: seq<u32>)
    ensures |oids| == |types| && forall i :: 0 <= i < |types| ==> oids[i] == types[i].oid
  {
    var ids := seq(|types|, i requires 0 <= i < |types| => types[i].oid as int);
    assert forall i :: 0 <= i < |ids| ==> ids[i] == types[i].oid;
    ids
  }

  /**
   The ad-hoc batch: Parse of the unnamed statement with the declared type
   identifiers, Bind to the unnamed portal, Describe of the statement,
   Execute with no row limit, Sync.
   */
  function EncodeAdHoc<V>(query: string, params: seq<(V, PgType)>,
                          codec: ParamCodec<V>, frameable: Frontend -> bool): (r: Result<seq<Frontend>>)
    ensures r.Ok? ==>
      && |r.value| == 5
      && r.value[0] == Parse("", query, Oids(ParamTypes(params)))
      && EncodeBind("", ParamTypes(params), ParamValues(params), "", codec, frameable) == Ok(r.value[1])
      && r.value[2] == Describe('S', "") && r.value[3] == Execute("", 0) && r.value[4] == Sync
    ensures !frameable(Parse("", query, Oids(ParamTypes(params)))) ==> r == Err(ParseError)
    // Past a framed Parse, a Bind failure (a conversion or an encode error) is passed through unchanged.
    ensures frameable(Parse("", query, Oids(ParamTypes(params)))) ==>
      var b := EncodeBind("", ParamTypes(params), ParamValues(params), "", codec, frameable);
      && (b.Err? ==> r == Err(b.error))
      && (b.Ok? ==> (r.Ok? <==> frameable(Describe('S', "")) && frameable(Execute("", 0))))
      && (b.Ok? && r.Err? ==> r.error == EncodeError)
    // Values and types come from the same pairs, so the counts always agree.
    ensures r.Err? ==> !r.error.Parameters?
  {
    var types := ParamTypes(params);
    var parse := Parse("", query, Oids(types));
    if !frameable(parse) then Err(ParseError)
    else
      var bind :- EncodeBind("", types, ParamValues(params), "", codec, frameable);
      if !frameable(Describe('S', "")) || !frameable(Execute("", 0)) then Err(EncodeError)
      else Ok([parse, bind, Describe('S', ""), Execute("", 0), Sync])
  }

  /**
   query_with_param_types: encodes and sends the batch, runs the reply loop,
   and returns a row stream over the replies after the description, for a
   throwaway unnamed statement with no parameter types.
   */
  method QueryWithParamTypes<V>(c: Client, query: string, params: seq<(V, PgType)>,
                                codec: ParamCodec<V>, frameable: Frontend -> bool,
                                replies: seq<Backend>, resolve: Catalog)
    returns (c': Client, r: Result<RowStream>)
    // An encoding failure sends nothing.
    ensures EncodeAdHoc(query, params, codec, frameable).Err? ==>
      c' == c && r == Err(EncodeAdHoc(query, params, codec, frameable).error)
    // Otherwise exactly the encoded batch is handed to the connection.
    ensures EncodeAdHoc(query, params, codec, frameable).Ok? ==>
      c' == Send(c, EncodeAdHoc(query, params, codec, frameable).value).0
    ensures !c.accepting ==> r.Err?
    ensures EncodeAdHoc(query, params, codec, frameable).Ok? && !c.accepting ==> r == Err(Closed)
    ensures r.Ok? ==>
      && |replies| >= HANDSHAKE_LEN
      && (forall k :: 0 <= k < HANDSHAKE_LEN ==> HandshakeReply(k, replies[k]))
      && r.value.statement.name == "" && r.value.statement.params == []
      && FormFinal(DescriptionOf(replies[3]), resolve) == Ok(Final(r.value.statement.columns))
      && r.value.responses == replies[HANDSHAKE_LEN..]
      && r.value.rowsAffected == None
    // Once the batch is sent, the replies decide: the prescribed exchange succeeds exactly
    // when its description resolves, and otherwise fails with the resolution error.
    ensures EncodeAdHoc(query, params, codec, frameable).Ok? && c.accepting &&
            |replies| >= HANDSHAKE_LEN && (forall k :: 0 <= k < HANDSHAKE_LEN ==> HandshakeReply(k, replies[k])) ==>
      && (r.Ok? <==> FormFinal(DescriptionOf(replies[3]), resolve).Ok?)
      && (r.Err? ==> r.error == FormFinal(DescriptionOf(replies[3]), resolve).error)
    // The first out-of-order reply decides the error.
    ensures EncodeAdHoc(query, params, codec, frameable).Ok? && c.accepting ==>
      forall k :: 0 <= k < HANDSHAKE_LEN && k < |replies| && !HandshakeReply(k, replies[k]) &&
                  (forall j :: 0 <= j < k ==> HandshakeReply(j, replies[j])) ==>
        r == Err(if replies[k].ErrorResponse? then Db(replies[k].error) else UnexpectedMessage)
    // Running out of replies before the exchange ends is a closed connection.
    ensures EncodeAdHoc(query, params, codec, frameable).Ok? && c.accepting &&
            |replies| < HANDSHAKE_LEN && (forall k :: 0 <= k < |replies| ==> HandshakeReply(k, replies[k])) ==>
      r == Err(Closed)
  {
    var batch := EncodeAdHoc(query, params, codec, frameable);
    if batch.Err? {
      return c, Err(batch.error);
    }
    var out := Send(c, batch.value);
    var sent;
    c', sent := out.0, out.1;
    if sent.Err? {
      return c', Err(sent.error);
    }
    var described := ProcessReplies(replies, resolve);
    if described.Err? {
      return c', Err(described.error);
    }
    r := Ok(RowStream(Unnamed([], described.value.columns), described.value.rest, None));
  }
}

=== FILE: base.dfy ===
/**
 Shared vocabulary of the extended-query model: the fixed-width integer
 types of the wire protocol, Option and Result, and the client's error
 taxonomy.
 */
module Base {

  /** Fixed-width integers, as subset types of the unbounded `int`. */
  type i16 = x: int | -0x8000 <= x < 0x8000
  type i32 = x: int | -0x8000_0000 <= x < 0x8000_0000
  type u32 = x: int | 0 <= x < 0x1_0000_0000
  type u64 = x: int | 0 <= x < 0x1_0000_0000_0000_0000

  const U64_LIMIT: nat := 0x1_0000_0000_0000_0000

  datatype Option<+T> = None | Some(value: T) {
    /** The wrapped value, or `default` when there is none. */
    function GetOr(default: T): T {
      match this
      case Some(v) => v
      case None => default
    }
  }

  /** The body of a server ErrorResponse, reduced to the fields a caller reads. */
  datatype ErrorBody = ErrorBody(code: string, message: string)

  /** The reason a parameter value could not be converted to its SQL type. */
  datatype ConversionError = ConversionError(reason: string)

  /** The client's error kinds that the extended-query path can produce. */
  datatype Error =
    | Db(body: ErrorBody)                          // Error::db: the server reported an error
    | UnexpectedMessage                            // Error::unexpected_message: protocol violation
    | Closed                                       // the reply channel ended or the connection is gone
    | ParseError                                   // Error::parse: an unreadable message field
    | EncodeError                                  // Error::encode: the frontend encoder could not frame a message
    | Parameters(actual: nat, expected: nat)       // Error::parameters(params.len(), param_types.len())
    | ToSql(cause: ConversionError, index: nat)    // Error::to_sql(e, idx)
    | Decode(reason: string)                       // an error from a collaborator (catalog lookup, row decoding)

  datatype Result<+T> = Ok(value: T) | Err(error: Error) {
    predicate IsFailure() {
      Err?
    }

    function PropagateFailure<U>(): Result<U>
      requires Err?
    {
      Err(error)
    }

    function Extract(): T
      requires Ok?
    {
      value
    }
  }
}

=== FILE: binding.dfy ===
/**
 The parameter binder: turns a statement's declared parameter types and the
 caller's values into one Bind message, or reports why it cannot.
 */
module Binding {
  import opened Base
  import opened Messages
  import opened Statements

  /** The outcome of converting one value to its SQL type (ToSql::to_sql_checked). */
  datatype Converted = NotNull(bytes: seq<bv8>) | IsNull | Failed(cause: ConversionError)

  /**
   The per-value collaborators of the binder, left uninterpreted: the wire
   format a value prefers for a type (encode_format) and its conversion.
   */
  datatype ParamCodec<-V> = ParamCodec(format: (V, PgType) -> Format, toSql: (V, PgType) -> Converted)

  /** The cell a successful conversion writes into the Bind message. */
  function Cell(c: Converted): Option<seq<bv8>>
    requires !c.Failed?
  {
    if c.NotNull? then Some(c.bytes) else None
  }

  /** The outcome of converting all values in order: every cell, or the first failure. */
  datatype Conversion = Values(cells: seq<Option<seq<bv8>>>) | FailedAt(cause: ConversionError, index: nat)

  predicate Converts<V>(codec: ParamCodec<V>, p: V, t: PgType) {
    !codec.toSql(p, t).Failed?
  }

  /**
   The values serialized one after another against their types. The first
   failure aborts and is reported with its zero-based position; every value
   before it converted.
   */
  function ConvertAll<V>(codec: ParamCodec<V>, params: seq<V>, types: seq<PgType>): (r: Conversion)
    requires |params| == |types|
    ensures r.Values? ==>
      && |r.cells| == |params|
      && forall i :: 0 <= i < |params| ==>
           Converts(codec, params[i], types[i]) && r.cells[i] == Cell(codec.toSql(params[i], types[i]))
    ensures r.FailedAt? ==>
      && r.index < |params|
      && codec.toSql(params[r.index], types[r.index]) == Failed(r.cause)
      && forall j :: 0 <= j < r.index ==> Converts(codec, params[j], types[j])
    decreases |params|
  {
    if |params| == 0 then Values([])
    else
      var c := codec.toSql(params[0], types[0]);
      if c.Failed? then FailedAt(c.cause, 0)
      else match ConvertAll(codec, params[1..], types[1..])
        case Values(cells) => Values([Cell(c)] + cells)
        case FailedAt(e, i) => FailedAt(e, i + 1)
  }

  /**
   A failure at position i depends only on the first i + 1 values and
   types: the values after the failing one are never converted.
   */
  lemma {:induction false} ConversionStopsAtFailure<V>(codec: ParamCodec<V>, params: seq<V>, types: seq<PgType>,
                                                       params': seq<V>, types': seq<PgType>)
    requires |params| == |types| && |params'| == |types'|
    requires ConvertAll(codec, params, types).FailedAt?
    requires var i := ConvertAll(codec, params, types).index;
      i < |params'| && params'[..i + 1] == params[..i + 1] && types'[..i + 1] == types[..i + 1]
    ensures ConvertAll(codec, params', types') == ConvertAll(codec, params, types)
    decreases |params|
  {
    var i := ConvertAll(codec, params, types).index;
    assert params'[0] == params[0] && types'[0] == types[0] by {
      assert params'[..i + 1][0] == params[..i + 1][0];
      assert types'[..i + 1][0] == types[..i + 1][0];
    }
    if i > 0 {
      assert params'[1..][..i] == params'[..i + 1][1..] == params[..i + 1][1..] == params[1..][..i];
      assert types'[1..][..i] == types'[..i + 1][1..] == types[..i + 1][1..] == types[1..][..i];
      ConversionStopsAtFailure(codec, params[1..], types[1..], params'[1..], types'[1..]);
    }
  }

  /** The format code of each parameter, in parameter order. */
  function Formats<V>(codec: ParamCodec<V>, params: seq<V>, types: seq<PgType>): (fs: seq<i16>)
    requires |params| == |types|
    ensures |fs| == |params|
  {
    var codes := seq(|params|, i requires 0 <= i < |params| => codec.format(params[i], types[i]).Code() as int);
    assert forall i :: 0 <= i < |codes| ==> codes[i] == codec.format(params[i], types[i]).Code();
    codes
  }

  /** Every Bind this client sends asks for all result columns in binary (format code 1). */
  const RESULT_FORMATS: seq<i16> := [1]

  /**
   encode_bind_with_statement_name_and_param_types. `frameable` stands for
   the protocol crate's own framing check, whose failure is an encode error.
   */
  function EncodeBind<V>(statementName: string, types: seq<PgType>, params: seq<V>, portal: string,
                         codec: ParamCodec<V>, frameable: Frontend -> bool): (r: Result<Frontend>)
    // The counts are compared first; a mismatch reports (given, declared).
    ensures |types| != |params| ==> r == Err(Parameters(|params|, |types|))
    ensures r.Err? && r.error.Parameters? ==> |types| != |params|
    // A conversion failure names the first failing position.
    ensures r.Err? && r.error.ToSql? ==>
      && |types| == |params|
      && r.error.index < |params|
      && codec.toSql(params[r.error.index], types[r.error.index]) == Failed(r.error.cause)
      && forall j :: 0 <= j < r.error.index ==> Converts(codec, params[j], types[j])
    ensures |types| == |params| && (exists i :: 0 <= i < |params| && !Converts(codec, params[i], types[i])) ==>
      r.Err? && r.error.ToSql?
    // On success: one format and one cell per parameter, in parameter order.
    ensures r.Ok? ==>
      && |types| == |params|
      && r.value.Bind?
      && r.value.portal == portal && r.value.statement == statementName
      && r.value.resultFormats == RESULT_FORMATS
      && |r.value.paramFormats| == |params| && |r.value.values| == |params|
      && (forall i :: 0 <= i < |params| ==> r.value.paramFormats[i] == codec.format(params[i], types[i]).Code())
      && (forall i :: 0 <= i < |params| ==>
            Converts(codec, params[i], types[i]) && r.value.values[i] == Cell(codec.toSql(params[i], types[i])))
      && frameable(r.value)
    // With matching counts and every value converted, only framing decides.
    ensures |types| == |params| && (forall i :: 0 <= i < |params| ==> Converts(codec, params[i], types[i])) ==>
      (r.Err? <==> !frameable(Bind(portal, statementName, Formats(codec, params, types),
                                   ConvertAll(codec, params, types).cells, RESULT_FORMATS)))
    // No other kind of error.
    ensures r.Err? ==> r.error.Parameters? || r.error.ToSql? || r.error == EncodeError
  {
    if |types| != |params| then Err(Parameters(|params|, |types|))
    else
      var formats := Formats(codec, params, types);
      match ConvertAll(codec, params, types)
      case FailedAt(e, i) => Err(ToSql(e, i))
      case Values(cells) =>
        var bind := Bind(portal, statementName, formats, cells, RESULT_FORMATS);
        if frameable(bind) then Ok(bind) else Err(EncodeError)
  }

  /** encode_bind: binds a prepared statement's own name and declared types. */
  function EncodeBindStatement<V>(statement: Statement, params: seq<V>, portal: string,
                                  codec: ParamCodec<V>, frameable: Frontend -> bool): (r: Result<Frontend>)
    ensures |statement.params| != |params| ==> r == Err(Parameters(|params|, |statement.params|))
    ensures r.Err? && r.error.Parameters? ==> |statement.params| != |params|
    // With matching counts and every value converted, only framing decides.
    ensures |statement.params| == |params| &&
            (forall i :: 0 <= i < |params| ==> Converts(codec, params[i], statement.params[i])) ==>
      (r.Err? <==> !frameable(Bind(portal, statement.name, Formats(codec, params, statement.params),
                                   ConvertAll(codec, params, statement.params).cells, RESULT_FORMATS)))
    // The declared types drive the conversions: the first failing one is reported.
    ensures r.Err? && r.error.ToSql? ==>
      && |statement.params| == |params|
      && r.error.index < |params|
      && codec.toSql(params[r.error.index], statement.params[r.error.index]) == Failed(r.error.cause)
      && forall j :: 0 <= j < r.error.index ==> Converts(codec, params[j], statement.params[j])
    ensures |statement.params| == |params| &&
            (exists i :: 0 <= i < |params| && !Converts(codec, params[i], statement.params[i])) ==>
      r.Err? && r.error.ToSql?
    // ... and the formats and cells of the Bind.
    ensures r.Ok? ==>
      && |statement.params| == |params|
      && r.value.Bind? && r.value.statement == statement.name && r.value.portal == portal
      && r.value.resultFormats == RESULT_FORMATS
      && |r.value.paramFormats| == |params| && |r.value.values| == |params|
      && (forall i :: 0 <= i < |params| ==>
            r.value.paramFormats[i] == codec.format(params[i], statement.params[i]).Code())
      && (forall i :: 0 <= i < |params| ==>
            Converts(codec, params[i], statement.params[i]) &&
            r.value.values[i] == Cell(codec.toSql(params[i], statement.params[i])))
    ensures r.Err? ==> r.error.Parameters? || r.error.ToSql? || r.error == EncodeError
  {
    EncodeBind(statement.name, statement.params, params, portal, codec, frameable)
  }

  /**
   encode: the batch that runs a prepared statement through the unnamed
   portal, Bind then Execute (no row limit) then Sync.
   */
  function EncodeExecution<V>(statement: Statement, params: seq<V>,
                              codec: ParamCodec<V>, frameable: Frontend -> bool): (r: Result<seq<Frontend>>)
    ensures r.Ok? ==>
      && |r.value| == 3
      && EncodeBindStatement(statement, params, "", codec, frameable).Ok?
      && r.value[0] == EncodeBindStatement(statement, params, "", codec, frameable).value
      && r.value[1] == Execute("", 0) && r.value[2] == Sync
    ensures r.Err? ==> EncodeBindStatement(statement, params, "", codec, frameable).Err? || !frameable(Execute("", 0))
    // A bind failure is returned unchanged; past a successful bind the only failure is framing Execute.
    ensures EncodeBindStatement(statement, params, "", codec, frameable).Err? ==>
      r == Err(EncodeBindStatement(statement, params, "", codec, frameable).error)
    ensures EncodeBindStatement(statement, params, "", codec, frameable).Ok? ==>
      (r.Ok? <==> frameable(Execute("", 0))) && (r.Err? ==> r.error == EncodeError)
  {
    var bind :- EncodeBindStatement(statement, params, "", codec, frameable);
    if frameable(Execute("", 0)) then Ok([bind, Execute("", 0), Sync]) else Err(EncodeError)
  }
}

=== FILE: entry.dfy ===
/**
 The prepared-statement entry points: `query` and `execute` bind and run a
 statement through the unnamed portal and insist on BindComplete as the
 first reply; `query_portal` fetches more rows from an open portal.
 */
module Entry {
  import opened Base
  import opened Messages
  import opened Statements
  import opened RowCount
  import opened Binding
  import opened Rows

  /** start: the first reply must be BindComplete; the rest are returned unread. */
  function Start(replies: seq<Backend>): (r: Result<seq<Backend>>)
    ensures r.Ok? <==> |replies| > 0 && replies[0].BindComplete?
    ensures r.Ok? ==> r.value == replies[1..]
    ensures |replies| == 0 ==> r == Err(Closed)
    ensures |replies| > 0 && !replies[0].BindComplete? ==> r == Err(UnexpectedMessage)
  {
    if |replies| == 0 then Err(Closed)
    else if replies[0].BindComplete? then Ok(replies[1..])
    else Err(UnexpectedMessage)
  }

  /**
   query: encodes the Bind/Execute/Sync batch, sends it, waits for
   BindComplete and returns a row stream over the remaining replies with no
   count recorded yet.
   */
  function Query<V>(c: Client, statement: Statement, params: seq<V>, codec: ParamCodec<V>,
                    frameable: Frontend -> bool, replies: seq<Backend>): (r: (Client, Result<RowStream>))
    // A binding failure is reported before anything is sent.
    ensures EncodeExecution(statement, params, codec, frameable).Err? ==>
      r.0 == c && r.1 == Err(EncodeExecution(statement, params, codec, frameable).error)
    ensures |statement.params| != |params| ==>
      r.0 == c && r.1 == Err(Parameters(|params|, |statement.params|))
    ensures EncodeExecution(statement, params, codec, frameable).Ok? ==>
      r.0 == Send(c, EncodeExecution(statement, params, codec, frameable).value).0
    // A first reply other than BindComplete is reported by the call itself.
    ensures r.1.Ok? ==>
      && c.accepting
      && |replies| > 0 && replies[0].BindComplete?
      && r.1.value == RowStream(statement, replies[1..], None)
    ensures c.accepting && EncodeExecution(statement, params, codec, frameable).Ok? ==>
      (r.1.Ok? <==> |replies| > 0 && replies[0].BindComplete?)
    // The errors of sending and of start are passed through.
    ensures EncodeExecution(statement, params, codec, frameable).Ok? && !c.accepting ==> r.1 == Err(Closed)
    ensures c.accepting && EncodeExecution(statement, params, codec, frameable).Ok? ==>
      && (|replies| == 0 ==> r.1 == Err(Closed))
      && (|replies| > 0 && !replies[0].BindComplete? ==> r.1 == Err(UnexpectedMessage))
  {
    match EncodeExecution(statement, params, codec, frameable)
    case Err(e) => (c, Err(e))
    case Ok(batch) =>
      var (c', sent) := Send(c, batch);
      if sent.Err? then (c', Err(sent.error))
      else match Start(replies)
        case Err(e) => (c', Err(e))
        case Ok(rest) => (c', Ok(RowStream(statement, rest, None)))
  }

  /** What one reply does to the running count of `execute`. */
  datatype Step = Continue(rows: u64) | Return(result: Result<u64>)

  /**
   The body of `execute`'s reply loop: a data row is discarded, a
   completion sets the count from its tag, an empty query resets it to 0,
   ReadyForQuery returns it and anything else is a protocol violation.
   */
  function ExecuteStep(rows: u64, m: Backend): Step {
    match m
    case DataRow(_) => Continue(rows)
    case CommandComplete(tag) =>
      (match ExtractRowsAffected(tag)
       case Ok(n) => Continue(n)
       case Err(e) => Return(Err(e)))
    case EmptyQueryResponse => Continue(0)
    case ReadyForQuery(_) => Return(Ok(rows))
    case _ => Return(Err(UnexpectedMessage))
  }

  /** Replies `execute` reads past: data rows, readable completions, empty queries. */
  predicate Passed(m: Backend) {
    m.DataRow? || (m.CommandComplete? && m.tag.Tag?) || m.EmptyQueryResponse?
  }

  /** The position of the first reply `execute` does not read past (|ms| when none). */
  function Stop(ms: seq<Backend>): (k: nat)
    ensures k <= |ms|
    ensures forall j :: 0 <= j < k ==> Passed(ms[j])
    ensures k < |ms| ==> !Passed(ms[k])
    decreases |ms|
  {
    if |ms| == 0 || !Passed(ms[0]) then 0 else Stop(ms[1..]) + 1
  }

  /**
   The count a run of replies settles on: the last completion's count, or 0
   when the last completion or empty query is an empty query, or none came.
   */
  function SettledCount(ms: seq<Backend>): u64 {
    match LastSetting(ms)
    case Some(CommandComplete(Tag(text))) => ExtractRowsAffected(Tag(text)).value
    case _ => 0
  }

  /** The last reply in `ms` that sets the count: a readable completion or an empty query. */
  function LastSetting(ms: seq<Backend>): Option<Backend>
    decreases |ms|
  {
    if |ms| == 0 then None
    else
      var m := ms[|ms| - 1];
      if (m.CommandComplete? && m.tag.Tag?) || m.EmptyQueryResponse? then Some(m)
      else LastSetting(ms[..|ms| - 1])
  }

  /**
   The reply loop of `execute`: the result is decided by the first reply
   the loop does not read past. ReadyForQuery returns the count the earlier
   replies settled on; an unreadable tag is a parse error; any other reply
   is a protocol violation; running out of replies is a closed connection.
   */
  method ExecuteReplies(replies: seq<Backend>) returns (r: Result<u64>)
    ensures var k := Stop(replies);
      && (k == |replies| ==> r == Err(Closed))
      && (k < |replies| && replies[k].ReadyForQuery? ==> r == Ok(SettledCount(replies[..k])))
      && (k < |replies| && replies[k].CommandComplete? ==> r == Err(ParseError))
      && (k < |replies| && !replies[k].ReadyForQuery? && !replies[k].CommandComplete? ==> r == Err(UnexpectedMessage))
  {
    var rows: u64 := 0;
    var i := 0;
    while i < |replies|
      invariant i <= |replies|
      invariant forall j :: 0 <= j < i ==> Passed(replies[j])
      invariant rows == SettledCount(replies[..i])
      decreases |replies| - i
    {
      var step := ExecuteStep(rows, replies[i]);
      StepOutcome(rows, replies[i]);
      if step.Return? {
        StopAt(replies, i);
        return step.result;
      }
      SettledStep(replies, i);
      rows := step.rows;
      i := i + 1;
    }
    StopAt(replies, i);
    return Err(Closed);
  }

  /** A step continues exactly on a reply `execute` reads past, and otherwise returns what that reply decides. */
  lemma StepOutcome(rows: u64, m: Backend)
    ensures ExecuteStep(rows, m).Continue? <==> Passed(m)
    ensures ExecuteStep(rows, m).Return? ==>
      ExecuteStep(rows, m).result ==
        (if m.ReadyForQuery? then Ok(rows) else if m.CommandComplete? then Err(ParseError) else Err(UnexpectedMessage))
  {
  }

  /** Reading past reply i moves the settled count by exactly one step. */
  lemma SettledStep(replies: seq<Backend>, i: nat)
    requires i < |replies| && Passed(replies[i])
    ensures ExecuteStep(SettledCount(replies[..i]), replies[i]) == Continue(SettledCount(replies[..i + 1]))
  {
    assert replies[..i + 1][..i] == replies[..i];
    assert replies[..i + 1][i] == replies[i];
  }

  /** Where every earlier reply is read past and reply i is not, i is the stopping point. */
  lemma {:induction false} StopAt(ms: seq<Backend>, i: nat)
    requires i <= |ms|
    requires forall j :: 0 <= j < i ==> Passed(ms[j])
    requires i < |ms| ==> !Passed(ms[i])
    ensures Stop(ms) == i
    decreases i
  {
    if i > 0 {
      StopAt(ms[1..], i - 1);
    }
  }

  /**
   execute: encodes and sends the Bind/Execute/Sync batch, requires
   BindComplete first, then runs the reply loop on the rest.
   */
  method ExecuteStatement<V>(c: Client, statement: Statement, params: seq<V>, codec: ParamCodec<V>,
                             frameable: Frontend -> bool, replies: seq<Backend>)
    returns (c': Client, r: Result<u64>)
    ensures EncodeExecution(statement, params, codec, frameable).Err? ==>
      c' == c && r == Err(EncodeExecution(statement, params, codec, frameable).error)
    ensures EncodeExecution(statement, params, codec, frameable).Ok? ==>
      c' == Send(c, EncodeExecution(statement, params, codec, frameable).value).0
    ensures r.Ok? ==>
      && c.accepting
      && |replies| > 0 && replies[0].BindComplete?
      && var rest := replies[1..]; var k := Stop(rest);
         k < |rest| && rest[k].ReadyForQuery? && r.value == SettledCount(rest[..k])
    // A refused send, or no reply at all, is a closed connection.
    ensures EncodeExecution(statement, params, codec, frameable).Ok? && (!c.accepting || |replies| == 0) ==>
      r == Err(Closed)
    ensures (c.accepting && EncodeExecution(statement, params, codec, frameable).Ok? &&
             |replies| > 0 && !replies[0].BindComplete?) ==> r == Err(UnexpectedMessage)
    // After a leading BindComplete, the reply loop decides.
    ensures (c.accepting && EncodeExecution(statement, params, codec, frameable).Ok? &&
             |replies| > 0 && replies[0].BindComplete?) ==>
      var rest := replies[1..]; var k := Stop(rest);
      && (k == |rest| ==> r == Err(Closed))
      && (k < |rest| && rest[k].ReadyForQuery? ==> r == Ok(SettledCount(rest[..k])))
      && (k < |rest| && rest[k].CommandComplete? ==> r == Err(ParseError))
      && (k < |rest| && !rest[k].ReadyForQuery? && !rest[k].CommandComplete? ==> r == Err(UnexpectedMessage))
  {
    var batch := EncodeExecution(statement, params, codec, frameable);
    if batch.Err? {
      return c, Err(batch.error);
    }
    var out := Send(c, batch.value);
    var sent;
    c', sent := out.0, out.1;
    if sent.Err? {
      return c', Err(sent.error);
    }
    var rest := Start(replies);
    if rest.Err? {
      return c', Err(rest.error);
    }
    r := ExecuteReplies(rest.value);
  }

  /**
   query_portal: sends Execute for the portal with the caller's row limit,
   then Sync, and returns a row stream over every reply (the portal was
   bound earlier, so no BindComplete is awaited) using the portal's
   statement.
   */
  function QueryPortal(c: Client, portal: Portal, maxRows: i32, frameable: Frontend -> bool,
                       replies: seq<Backend>): (r: (Client, Result<RowStream>))
    ensures !frameable(Execute(portal.name, maxRows)) ==> r == (c, Err(EncodeError))
    ensures frameable(Execute(portal.name, maxRows)) ==> r.0 == Send(c, [Execute(portal.name, maxRows), Sync]).0
    ensures r.1.Ok? <==> frameable(Execute(portal.name, maxRows)) && c.accepting
    ensures frameable(Execute(portal.name, maxRows)) && !c.accepting ==> r.1 == Err(Closed)
    ensures r.1.Ok? ==> r.1.value == RowStream(portal.statement, replies, None)
  {
    if !frameable(Execute(portal.name, maxRows)) then (c, Err(EncodeError))
    else
      var (c', sent) := Send(c, [Execute(portal.name, maxRows), Sync]);
      if sent.Err? then (c', Err(sent.error))
      else (c', Ok(RowStream(portal.statement, replies, None)))
  }
}

=== FILE: messages.dfy ===
/**
 The protocol messages of the extended-query flow, as abstract values: the
 byte-level framing belongs to the protocol crate and is not modelled.
 */
module Messages {
  import opened Base

  /** A resolved SQL type; `oid` is the wire identifier of the type. */
  datatype PgType = PgType(name: string, oid: u32)

  /** The wire format of a parameter value or result column. */
  datatype Format = Text | Binary {
    /** The format code written into a Bind message. */
    function Code(): i16 {
      match this
      case Text => 0
      case Binary => 1
    }
  }

  /** One field of a RowDescription message. */
  datatype Field = Field(name: string, tableOid: u32, columnId: i16, typeOid: u32)

  /**
   The body of a RowDescription, as the field iterator sees it: the fields
   it yields in order, then either a clean end or a field it cannot read.
   */
  datatype RowDescriptionBody = RowDescriptionBody(fields: seq<Field>, malformedTail: bool)

  /** The tag of a CommandComplete message, or a tag that cannot be read as text. */
  datatype CommandTag = Tag(text: string) | UnreadableTag

  /** The raw cells of a DataRow message. */
  datatype RowBody = RowBody(cells: seq<Option<seq<bv8>>>)

  /** Messages the backend sends; `Other` stands for every kind not listed. */
  datatype Backend =
    | ParseComplete
    | BindComplete
    | ParameterDescription(paramOids: seq<u32>)
    | RowDescription(description: RowDescriptionBody)
    | NoData
    | DataRow(body: RowBody)
    | CommandComplete(tag: CommandTag)
    | EmptyQueryResponse
    | PortalSuspended
    | ReadyForQuery(status: char)
    | ErrorResponse(error: ErrorBody)
    | Other(kind: char)

  /** Messages the client sends in the extended-query flow. */
  datatype Frontend =
    | Parse(statement: string, query: string, paramOids: seq<u32>)
    | Bind(portal: string, statement: string, paramFormats: seq<i16>,
           values: seq<Option<seq<bv8>>>, resultFormats: seq<i16>)
    | Describe(kind: char, name: string)
    | Execute(portal: string, maxRows: i32)
    | Sync
    | Close(kind: char, name: string)
}

=== FILE: rowcount.dfy ===
/**
 extract_row_affected: the number of rows a command touched, read from the
 token after the last space of its CommandComplete tag ("INSERT 0 3",
 "UPDATE 5"). A token that is not an unsigned 64-bit decimal counts as 0;
 only a tag that cannot be read at all is an error.
 */
module RowCount {
  import opened Base
  import opened Messages

  predicate IsDigit(c: char) {
    '0' <= c <= '9'
  }

  predicate AllDigits(s: string) {
    forall i :: 0 <= i < |s| ==> IsDigit(s[i])
  }

  /** The value of a string of decimal digits, most significant first. */
  function DigitsValue(s: string): nat
    requires AllDigits(s)
    decreases |s|
  {
    if |s| == 0 then 0
    else DigitsValue(s[..|s| - 1]) * 10 + (s[|s| - 1] as int - '0' as int)
  }

  /** The shortest decimal spelling of a natural number. */
  function Decimal(n: nat): (s: string)
    decreases n
  {
    if n < 10 then [('0' as int + n) as char]
    else Decimal(n / 10) + [('0' as int + n % 10) as char]
  }

  lemma {:induction false} DecimalDigits(n: nat)
    ensures |Decimal(n)| > 0 && AllDigits(Decimal(n)) && DigitsValue(Decimal(n)) == n
    ensures ' ' !in Decimal(n) && '+' !in Decimal(n)
    decreases n
  {
    if n >= 10 {
      DecimalDigits(n / 10);
      var s := Decimal(n);
      assert s[..|s| - 1] == Decimal(n / 10);
    }
  }

  /**
   The digits `u64::from_str` reads: a single leading '+' is dropped; any
   other leading sign is left in place (and is then not a digit).
   */
  function Unsigned(s: string): string {
    if |s| > 0 && s[0] == '+' then s[1..] else s
  }

  /** `u64::from_str`: non-empty decimal digits after an optional '+', below 2^64. */
  function ParseU64(s: string): (r: Option<u64>)
  {
    var d := Unsigned(s);
    if |d| > 0 && AllDigits(d) && DigitsValue(d) < U64_LIMIT then Some(DigitsValue(d)) else None
  }

  /** `rsplit(' ').next()`: the part of the tag after its last space (the whole tag if it has none). */
  function LastToken(s: string): (r: string)
    ensures |r| <= |s| && r == s[|s| - |r|..]
    ensures ' ' !in r
    ensures |r| < |s| ==> s[|s| - |r| - 1] == ' '
    decreases |s|
  {
    if |s| == 0 || s[|s| - 1] == ' ' then []
    else LastToken(s[..|s| - 1]) + [s[|s| - 1]]
  }

  /**
   extract_row_affected: a readable tag gives the parsed last token, or 0
   when that token is not a u64; an unreadable tag is a parse error.
   */
  function ExtractRowsAffected(tag: CommandTag): (r: Result<u64>)
    ensures r.Err? <==> tag.UnreadableTag?
    ensures r.Err? ==> r.error == ParseError
    ensures r.Ok? && ParseU64(LastToken(tag.text)).Some? ==> r.value == ParseU64(LastToken(tag.text)).value
    ensures r.Ok? && ParseU64(LastToken(tag.text)).None? ==> r.value == 0
  {
    match tag
    case UnreadableTag => Err(ParseError)
    case Tag(text) => Ok(ParseU64(LastToken(text)).GetOr(0))
  }

  /** Any tag ending in a space and the decimal count reports that count. */
  lemma TrailingCountIsReported(prefix: string, n: u64)
    ensures ExtractRowsAffected(Tag(prefix + " " + Decimal(n))) == Ok(n)
  {
    DecimalDigits(n);
    var s := prefix + " " + Decimal(n);
    LastTokenAfterSpace(prefix, Decimal(n));
    assert Unsigned(Decimal(n)) == Decimal(n);
  }

  /** A count spelled as the whole tag, with no space, is reported too. */
  lemma BareCountIsReported(n: u64)
    ensures ExtractRowsAffected(Tag(Decimal(n))) == Ok(n)
  {
    DecimalDigits(n);
    LastTokenWithoutSpace(Decimal(n));
    assert Unsigned(Decimal(n)) == Decimal(n);
  }

  lemma {:induction false} LastTokenAfterSpace(prefix: string, t: string)
    requires ' ' !in t
    ensures LastToken(prefix + " " + t) == t
    decreases |t|
  {
    var s := prefix + " " + t;
    if |t| == 0 {
      assert s[|s| - 1] == ' ';
    } else {
      var t' := t[..|t| - 1];
      var c := t[|t| - 1];
      assert c in t;
      assert s[|s| - 1] == c && c != ' ';
      assert s[..|s| - 1] == prefix + " " + t';
      assert ' ' !in t' by {
        assert forall j :: 0 <= j < |t'| ==> t'[j] == t[j];
      }
      LastTokenAfterSpace(prefix, t');
      assert t == t' + [c];
    }
  }

  lemma {:induction false} LastTokenWithoutSpace(t: string)
    requires ' ' !in t
    ensures LastToken(t) == t
    decreases |t|
  {
    if |t| > 0 {
      var t' := t[..|t| - 1];
      LastTokenWithoutSpace(t');
      assert t == t' + [t[|t| - 1]];
    }
  }

  /** A count of 2^64 or more does not fit a u64 and is reported as 0. */
  lemma OverflowingCountIsZero(prefix: string, n: nat)
    requires n >= U64_LIMIT
    ensures ExtractRowsAffected(Tag(prefix + " " + Decimal(n))) == Ok(0)
  {
    DecimalDigits(n);
    LastTokenAfterSpace(prefix, Decimal(n));
    assert Unsigned(Decimal(n)) == Decimal(n);
  }

  /** The command tag "INSERT 0 3" reports 3 rows. */
  lemma InsertTagExample()
    ensures ExtractRowsAffected(Tag("INSERT 0 3")) == Ok(3)
  {
    assert Decimal(3) == "3";
    TrailingCountIsReported("INSERT 0", 3);
    assert "INSERT 0" + " " + "3" == "INSERT 0 3";
  }

  /** The command tag "UPDATE 5" reports 5 rows. */
  lemma UpdateTagExample()
    ensures ExtractRowsAffected(Tag("UPDATE 5")) == Ok(5)
  {
    assert Decimal(5) == "5";
    TrailingCountIsReported("UPDATE", 5);
    assert "UPDATE" + " " + "5" == "UPDATE 5";
  }

  /** The command tag "SELECT 2" reports 2 rows. */
  lemma SelectTagExample()
    ensures ExtractRowsAffected(Tag("SELECT 2")) == Ok(2)
  {
    assert Decimal(2) == "2";
    TrailingCountIsReported("SELECT", 2);
    assert "SELECT" + " " + "2" == "SELECT 2";
  }

  /** An empty tag carries no count and reports 0. */
  lemma EmptyTagExample()
    ensures ExtractRowsAffected(Tag("")) == Ok(0)
  {
    assert LastToken("") == "";
    assert ParseU64("") == None;
  }

  /** A tag that is a bare command word carries no count and reports 0. */
  lemma WordTagExample()
    ensures ExtractRowsAffected(Tag("SELECT")) == Ok(0)
  {
    var w := "SELECT";
    LastTokenWithoutSpace(w);
    assert Unsigned(w) == w;
    assert !IsDigit(w[0]);
    assert ParseU64(w) == None;
  }
}

=== FILE: rows.dfy ===
/**
 RowStream: the lazily consumed rows of one execution. Each pull reads
 replies until it can yield a row, end the stream or fail, and records the
 rows-affected count of every CommandComplete it passes.
 */
module Rows {
  import opened Base
  import opened Messages
  import opened Statements
  import opened RowCount

  /** A decoded row: the statement that interprets it and its raw cells. */
  datatype Row = Row(statement: Statement, body: RowBody)

  /** Row::new, left uninterpreted: it may reject a row it cannot decode. */
  type RowDecoder = (Statement, RowBody) -> Result<Row>

  /**
   A stream over the replies still to be read. `rowsAffected` is unset
   until a CommandComplete has been read.
   */
  datatype RowStream = RowStream(statement: Statement, responses: seq<Backend>, rowsAffected: Option<u64>)

  /** The outcome of one pull: a row, the end of the stream, or an error. */
  datatype Item = Yield(row: Row) | End | Fail(error: Error)

  /** Replies a pull reads past without yielding: a readable completion, an empty query, a suspended portal. */
  predicate Skipped(m: Backend) {
    (m.CommandComplete? && m.tag.Tag?) || m.EmptyQueryResponse? || m.PortalSuspended?
  }

  /** The position of the first reply that is not skipped (|ms| when there is none). */
  function Pending(ms: seq<Backend>): (k: nat)
    ensures k <= |ms|
    ensures forall j :: 0 <= j < k ==> Skipped(ms[j])
    ensures k < |ms| ==> !Skipped(ms[k])
    decreases |ms|
  {
    if |ms| == 0 || !Skipped(ms[0]) then 0 else Pending(ms[1..]) + 1
  }

  /** The text of the last readable CommandComplete tag in `ms`, if there is one. */
  function LastTagText(ms: seq<Backend>): Option<string>
    decreases |ms|
  {
    if |ms| == 0 then None
    else
      var m := ms[|ms| - 1];
      if m.CommandComplete? && m.tag.Tag? then Some(m.tag.text)
      else LastTagText(ms[..|ms| - 1])
  }

  /** The count reported by the last readable CommandComplete in `ms`, or `init` when there is none. */
  function LastCount(ms: seq<Backend>, init: Option<u64>): Option<u64> {
    match LastTagText(ms)
    case None => init
    case Some(text) => Some(ExtractRowsAffected(Tag(text)).value)
  }

  /** The item a reply that is not skipped produces. */
  function Outcome(st: Statement, m: Backend, decode: RowDecoder): Item
    requires !Skipped(m)
  {
    match m
    case DataRow(body) =>
      (match decode(st, body)
       case Ok(row) => Yield(row)
       case Err(e) => Fail(e))
    case CommandComplete(_) => Fail(ParseError)
    case ReadyForQuery(_) => End
    case _ => Fail(UnexpectedMessage)
  }

  /**
   RowStream::poll_next. The pull consumes the skipped replies and the first
   reply after them; it produces that reply's outcome, and records the
   count of the last completion it passed. A stream whose replies have run
   out fails as a closed connection.
   */
  function PollNext(rs: RowStream, decode: RowDecoder): (r: (Item, RowStream))
    ensures r.1.statement == rs.statement
    ensures |rs.responses| > 0 ==> |r.1.responses| < |rs.responses|
    decreases |rs.responses|
  {
    if |rs.responses| == 0 then (Fail(Closed), rs)
    else
      var m := rs.responses[0];
      var rest := rs.(responses := rs.responses[1..]);
      match m
      case DataRow(body) =>
        (match decode(rs.statement, body)
         case Ok(row) => (Yield(row), rest)
         case Err(e) => (Fail(e), rest))
      case CommandComplete(tag) =>
        (match ExtractRowsAffected(tag)
         case Ok(n) =>
           PollNext(rest.(rowsAffected := Some(n)), decode)
         case Err(e) => (Fail(e), rest))
      case EmptyQueryResponse =>
        PollNext(rest, decode)
      case PortalSuspended =>
        PollNext(rest, decode)
      case ReadyForQuery(_) => (End, rest)
      case _ => (Fail(UnexpectedMessage), rest)
  }

  /**
   What one pull does: it consumes the skipped replies and the first reply
   after them, produces that reply's outcome, and records the count of the
   last completion it passed. A stream whose replies run out fails as a
   closed connection.
   */
  lemma PollNextReadsToPending(rs: RowStream, decode: RowDecoder)
    ensures var r := PollNext(rs, decode); var k := Pending(rs.responses);
      && r.1.rowsAffected == LastCount(rs.responses[..k], rs.rowsAffected)
      && (k == |rs.responses| ==> r.0 == Fail(Closed) && r.1.responses == [])
      && (k < |rs.responses| ==>
            r.0 == Outcome(rs.statement, rs.responses[k], decode) && r.1.responses == rs.responses[k + 1..])
  {
    PollNextCount(rs, decode);
    PollNextItem(rs, decode);
  }

  /** The count a pull records is the last one among the replies it skips. */
  lemma {:induction false} PollNextCount(rs: RowStream, decode: RowDecoder)
    ensures PollNext(rs, decode).1.rowsAffected == LastCount(rs.responses[..Pending(rs.responses)], rs.rowsAffected)
    decreases |rs.responses|
  {
    var ms := rs.responses;
    if |ms| == 0 {
      assert ms[..0] == [];
    } else if !Skipped(ms[0]) {
      PollNextHead(rs, decode);
      assert ms[..0] == [];
    } else {
      var m := ms[0];
      var init' := if m.CommandComplete? then Some(ExtractRowsAffected(m.tag).value) else rs.rowsAffected;
      PollNextSkips(rs, decode);
      PollNextCount(RowStream(rs.statement, ms[1..], init'), decode);
      SkipOne(ms, rs.rowsAffected);
    }
  }

  /** The item a pull produces and the replies it leaves: those after the first reply it does not skip. */
  lemma {:induction false} PollNextItem(rs: RowStream, decode: RowDecoder)
    ensures var r := PollNext(rs, decode); var k := Pending(rs.responses);
      && (k == |rs.responses| ==> r.0 == Fail(Closed) && r.1.responses == [])
      && (k < |rs.responses| ==>
            r.0 == Outcome(rs.statement, rs.responses[k], decode) && r.1.responses == rs.responses[k + 1..])
    decreases |rs.responses|
  {
    var ms := rs.responses;
    if |ms| > 0 && !Skipped(ms[0]) {
      PollNextHead(rs, decode);
    } else if |ms| > 0 {
      var m := ms[0];
      var init' := if m.CommandComplete? then Some(ExtractRowsAffected(m.tag).value) else rs.rowsAffected;
      PollNextSkips(rs, decode);
      PollNextItem(RowStream(rs.statement, ms[1..], init'), decode);
      SkipPosition(ms);
    }
  }

  /** Past a skipped first reply, the pending position moves back by one. */
  lemma SkipPosition(ms: seq<Backend>)
    requires |ms| > 0 && Skipped(ms[0])
    ensures Pending(ms) == Pending(ms[1..]) + 1
    ensures var k := Pending(ms); k < |ms| ==> ms[k] == ms[1..][k - 1] && ms[k + 1..] == ms[1..][k..]
  {
  }

  /** A pull whose first reply is not skipped produces that reply's outcome and reads nothing more. */
  lemma PollNextHead(rs: RowStream, decode: RowDecoder)
    requires |rs.responses| > 0 && !Skipped(rs.responses[0])
    ensures PollNext(rs, decode) ==
      (Outcome(rs.statement, rs.responses[0], decode), rs.(responses := rs.responses[1..]))
  {
  }

  /** A pull passes over a skipped first reply, recording its count when it is a completion. */
  lemma PollNextSkips(rs: RowStream, decode: RowDecoder)
    requires |rs.responses| > 0 && Skipped(rs.responses[0])
    ensures var m := rs.responses[0];
      var init' := if m.CommandComplete? then Some(ExtractRowsAffected(m.tag).value) else rs.rowsAffected;
      PollNext(rs, decode) == PollNext(RowStream(rs.statement, rs.responses[1..], init'), decode)
  {
    var m := rs.responses[0];
    if m.CommandComplete? {
      assert ExtractRowsAffected(m.tag).Ok?;
    }
  }

  /** The count over a run of replies, seen from its first reply: what the first sets, the rest may override. */
  lemma LastCountFirst(ms: seq<Backend>, init: Option<u64>)
    requires |ms| > 0
    ensures var m := ms[0];
      LastCount(ms, init) ==
        LastCount(ms[1..], if m.CommandComplete? && m.tag.Tag? then Some(ExtractRowsAffected(m.tag).value) else init)
  {
    var m := ms[0];
    assert ms == [m] + ms[1..];
    assert [m][..0] == [];
    assert LastTagText([m]) == if m.CommandComplete? && m.tag.Tag? then Some(m.tag.text) else None;
    LastCountAppend([m], ms[1..], init);
  }

  /** Reading one skipped reply moves the pending position and the count forward by that reply. */
  lemma SkipOne(ms: seq<Backend>, init: Option<u64>)
    requires |ms| > 0 && Skipped(ms[0])
    ensures Pending(ms) > 0
    ensures var m := ms[0]; var k := Pending(ms);
      LastCount(ms[..k], init) ==
        LastCount(ms[1..][..k - 1], if m.CommandComplete? then Some(ExtractRowsAffected(m.tag).value) else init)
  {
    SkipPosition(ms);
    var k := Pending(ms);
    var pre := ms[..k];
    assert |pre| > 0 && pre[0] == ms[0];
    assert pre[1..] == ms[1..][..k - 1];
    LastCountFirst(pre, init);
  }

  /** RowStream::rows_affected: the count recorded so far. */
  function RowsAffected(rs: RowStream): Option<u64> {
    rs.rowsAffected
  }

  /** The count stays unset across a pull exactly when it was unset and no completion was read. */
  lemma {:induction false} RowsAffectedUnsetUntilCompletion(rs: RowStream, decode: RowDecoder)
    requires rs.rowsAffected == None
    ensures var k := Pending(rs.responses);
      RowsAffected(PollNext(rs, decode).1) == None <==>
        forall j :: 0 <= j < k ==> !rs.responses[j].CommandComplete?
  {
    var k := Pending(rs.responses);
    var passed := rs.responses[..k];
    assert forall j :: 0 <= j < k ==> passed[j] == rs.responses[j];
    PollNextReadsToPending(rs, decode);
    LastCountUnset(passed);
  }

  /** Over skipped replies, the count is unset exactly when none of them is a completion. */
  lemma LastCountUnset(ms: seq<Backend>)
    requires forall j :: 0 <= j < |ms| ==> Skipped(ms[j])
    ensures LastCount(ms, None) == None <==> forall j :: 0 <= j < |ms| ==> !ms[j].CommandComplete?
  {
    LastTagNone(ms);
  }

  /** No readable completion tag is found exactly when no reply is a readable completion. */
  lemma {:induction false} LastTagNone(ms: seq<Backend>)
    ensures LastTagText(ms) == None <==> forall j :: 0 <= j < |ms| ==> !(ms[j].CommandComplete? && ms[j].tag.Tag?)
    decreases |ms|
  {
    if |ms| > 0 {
      LastTagNone(ms[..|ms| - 1]);
      assert forall j :: 0 <= j < |ms| - 1 ==> ms[..|ms| - 1][j] == ms[j];
    }
  }

  /** A reply a full drain passes over: a decodable data row or a skipped reply. */
  predicate Flows(st: Statement, m: Backend, decode: RowDecoder) {
    Skipped(m) || (m.DataRow? && decode(st, m.body).Ok?)
  }

  /** The rows the data rows among `ms` decode to, in order. */
  function DecodedRows(st: Statement, ms: seq<Backend>, decode: RowDecoder): (rows: seq<Row>)
    requires forall j :: 0 <= j < |ms| ==> Flows(st, ms[j], decode)
    decreases |ms|
  {
    if |ms| == 0 then []
    else
      var init := DecodedRows(st, ms[..|ms| - 1], decode);
      var m := ms[|ms| - 1];
      assert Flows(st, m, decode);
      if m.DataRow? then init + [decode(st, m.body).value] else init
  }

  /** The result of pulling a stream until it ends or fails. */
  datatype Drained = Drained(rows: seq<Row>, last: Item, stream: RowStream)

  /** Pulls until the stream stops yielding rows, as a caller collecting every row does. */
  function Drain(rs: RowStream, decode: RowDecoder): (d: Drained)
    ensures !d.last.Yield?
    decreases |rs.responses|
  {
    var (item, rs') := PollNext(rs, decode);
    if item.Yield? then
      var rest := Drain(rs', decode);
      Drained([item.row] + rest.rows, rest.last, rest.stream)
    else Drained([], item, rs')
  }

  /**
   A full drain over replies `body + [m] + tail`, where every reply of
   `body` flows and `m` does not: the rows are the decoded data rows of
   `body` in order, the last item is `m`'s outcome, `tail` is left unread
   and the count is the last one `body` reports.
   */
  lemma {:induction false} DrainStopsAtFirstTerminal(st: Statement, body: seq<Backend>, m: Backend, tail: seq<Backend>,
                                                     init: Option<u64>, decode: RowDecoder)
    requires forall j :: 0 <= j < |body| ==> Flows(st, body[j], decode)
    requires !Flows(st, m, decode)
    ensures var d := Drain(RowStream(st, body + [m] + tail, init), decode);
      && d.rows == DecodedRows(st, body, decode)
      && d.last == Outcome(st, m, decode)
      && d.stream == RowStream(st, tail, LastCount(body, init))
    decreases |body|
  {
    var ms := body + [m] + tail;
    var rs := RowStream(st, ms, init);
    var i := FirstNonSkipped(body, m, tail);
    if i == |body| {
      FirstPullAtTerminal(st, body, m, tail, init, decode);
      NoDataRowNoRows(st, body, decode);
    } else {
      var row := decode(st, body[i].body).value;
      var rest := body[i + 1..];
      var rs' := RowStream(st, rest + [m] + tail, LastCount(body[..i], init));
      FirstPullAtRow(st, body, m, tail, init, decode, i);
      assert PollNext(rs, decode) == (Yield(row), rs');
      assert forall j :: 0 <= j < |rest| ==> rest[j] == body[i + 1 + j];
      DrainStopsAtFirstTerminal(st, rest, m, tail, LastCount(body[..i], init), decode);
      assert Drain(rs, decode) == Drained([row] + Drain(rs', decode).rows, Drain(rs', decode).last, Drain(rs', decode).stream);
      DecodedRowsSplit(st, body, i, decode);
      LastCountSplit(body, i, init);
    }
  }

  /** When `body` holds only skipped replies, the first pull reads through it and stops at `m`. */
  lemma FirstPullAtTerminal(st: Statement, body: seq<Backend>, m: Backend, tail: seq<Backend>,
                            init: Option<u64>, decode: RowDecoder)
    requires !Skipped(m)
    requires forall j :: 0 <= j < |body| ==> Skipped(body[j])
    ensures PollNext(RowStream(st, body + [m] + tail, init), decode) ==
      (Outcome(st, m, decode), RowStream(st, tail, LastCount(body, init)))
  {
    var ms := body + [m] + tail;
    assert ms[|body|] == m && ms[|body| + 1..] == tail && ms[..|body|] == body;
    assert forall j :: 0 <= j < |body| ==> ms[j] == body[j];
    StopsAtIndex(ms, |body|);
    PollNextReadsToPending(RowStream(st, ms, init), decode);
  }

  /** When the first reply of `body` that is not skipped is a data row at i, the first pull yields it. */
  lemma FirstPullAtRow(st: Statement, body: seq<Backend>, m: Backend, tail: seq<Backend>,
                       init: Option<u64>, decode: RowDecoder, i: nat)
    requires !Skipped(m)
    requires i < |body| && body[i].DataRow? && decode(st, body[i].body).Ok?
    requires forall j :: 0 <= j < i ==> Skipped(body[j])
    ensures PollNext(RowStream(st, body + [m] + tail, init), decode) ==
      (Yield(decode(st, body[i].body).value), RowStream(st, body[i + 1..] + [m] + tail, LastCount(body[..i], init)))
  {
    var ms := body + [m] + tail;
    assert ms[i] == body[i];
    assert ms[..i] == body[..i];
    assert ms[i + 1..] == body[i + 1..] + [m] + tail;
    assert forall j :: 0 <= j < i ==> Skipped(ms[j]) by {
      forall j | 0 <= j < i ensures Skipped(ms[j]) {
        assert ms[j] == body[j];
      }
    }
    PollNextAt(RowStream(st, ms, init), decode, i);
  }

  /** A pull whose first reply that is not skipped sits at i produces that reply's outcome. */
  lemma PollNextAt(rs: RowStream, decode: RowDecoder, i: nat)
    requires i < |rs.responses| && !Skipped(rs.responses[i])
    requires forall j :: 0 <= j < i ==> Skipped(rs.responses[j])
    ensures PollNext(rs, decode) ==
      (Outcome(rs.statement, rs.responses[i], decode),
       RowStream(rs.statement, rs.responses[i + 1..], LastCount(rs.responses[..i], rs.rowsAffected)))
  {
    StopsAtIndex(rs.responses, i);
    PollNextReadsToPending(rs, decode);
  }

  /** The pending position is the first reply that is not skipped. */
  lemma {:induction false} StopsAtIndex(ms: seq<Backend>, i: nat)
    requires i < |ms| && !Skipped(ms[i])
    requires forall j :: 0 <= j < i ==> Skipped(ms[j])
    ensures Pending(ms) == i
    decreases i
  {
    if i > 0 {
      StopsAtIndex(ms[1..], i - 1);
    }
  }

  /** The first reply of `body` that is not skipped, if any, is where the stream's first pull stops. */
  lemma FirstNonSkipped(body: seq<Backend>, m: Backend, tail: seq<Backend>) returns (i: nat)
    requires !Skipped(m)
    ensures i <= |body|
    ensures Pending(body + [m] + tail) == i
    ensures forall j :: 0 <= j < i ==> Skipped(body[j])
    ensures i < |body| ==> !Skipped(body[i])
  {
    var ms := body + [m] + tail;
    assert ms[|body|] == m;
    i := Pending(ms);
    assert forall j :: 0 <= j < i && j < |body| ==> ms[j] == body[j];
  }

  /** Skipped replies hold no data rows. */
  lemma {:induction false} NoDataRowNoRows(st: Statement, ms: seq<Backend>, decode: RowDecoder)
    requires forall j :: 0 <= j < |ms| ==> Skipped(ms[j])
    ensures DecodedRows(st, ms, decode) == []
    decreases |ms|
  {
    if |ms| > 0 {
      NoDataRowNoRows(st, ms[..|ms| - 1], decode);
    }
  }

  /** The rows of `body` split at a data row `i` that only skipped replies precede. */
  lemma {:induction false} DecodedRowsSplit(st: Statement, body: seq<Backend>, i: nat, decode: RowDecoder)
    requires forall j :: 0 <= j < |body| ==> Flows(st, body[j], decode)
    requires i < |body| && body[i].DataRow?
    requires forall j :: 0 <= j < i ==> Skipped(body[j])
    ensures DecodedRows(st, body, decode) ==
      [decode(st, body[i].body).value] + DecodedRows(st, body[i + 1..], decode)
    decreases |body|
  {
    if |body| == i + 1 {
      assert body[..|body| - 1] == body[..i];
      NoDataRowNoRows(st, body[..i], decode);
    } else {
      var b' := body[..|body| - 1];
      DecodedRowsSplit(st, b', i, decode);
      assert b'[i + 1..] == body[i + 1..][..|body[i + 1..]| - 1];
    }
  }

  /** The count over `body` is the count over what follows a data row at `i`, started from the count before it. */
  lemma LastCountSplit(body: seq<Backend>, i: nat, init: Option<u64>)
    requires i < |body| && body[i].DataRow?
    ensures LastCount(body, init) == LastCount(body[i + 1..], LastCount(body[..i], init))
  {
    var p, q := body[..i + 1], body[i + 1..];
    assert p + q == body;
    LastCountAppend(p, q, init);
    LastCountPastRow(body, i, init);
  }

  /** A data row does not change the count. */
  lemma LastCountPastRow(body: seq<Backend>, i: nat, init: Option<u64>)
    requires i < |body| && body[i].DataRow?
    ensures LastCount(body[..i + 1], init) == LastCount(body[..i], init)
  {
    var p := body[..i + 1];
    assert p[|p| - 1] == body[i];
    assert p[..|p| - 1] == body[..i];
    assert LastTagText(p) == LastTagText(body[..i]);
  }

  /** The count over two runs of replies is the count over the second, started from the first's. */
  lemma LastCountAppend(a: seq<Backend>, b: seq<Backend>, init: Option<u64>)
    ensures LastCount(a + b, init) == LastCount(b, LastCount(a, init))
  {
    LastTagAppend(a, b);
  }

  /** The last readable completion tag of two runs is the second's, or the first's when the second has none. */
  lemma {:induction false} LastTagAppend(a: seq<Backend>, b: seq<Backend>)
    ensures LastTagText(a + b) == if LastTagText(b).Some? then LastTagText(b) else LastTagText(a)
    decreases |b|
  {
    if |b| == 0 {
      assert a + b == a;
    } else {
      var b' := b[..|b| - 1];
      assert (a + b)[..|a + b| - 1] == a + b';
      assert (a + b)[|a + b| - 1] == b[|b| - 1];
      LastTagAppend(a, b');
    }
  }

  /**
   Two data rows, a completion tagged "SELECT 2" and ReadyForQuery: two rows
   come out, then the end; the count is unset while rows are still coming
   and is 2 once the stream has ended.
   */
  lemma TwoRowSelectExample(st: Statement, b1: RowBody, b2: RowBody, status: char, decode: RowDecoder)
    requires decode(st, b1).Ok? && decode(st, b2).Ok?
    ensures var rs := RowStream(st, [DataRow(b1), DataRow(b2), CommandComplete(Tag("SELECT 2")), ReadyForQuery(status)], None);
      var p1 := PollNext(rs, decode);
      var p2 := PollNext(p1.1, decode);
      var p3 := PollNext(p2.1, decode);
      && p1.0 == Yield(decode(st, b1).value) && RowsAffected(p1.1) == None
      && p2.0 == Yield(decode(st, b2).value) && RowsAffected(p2.1) == None
      && p3.0 == End && RowsAffected(p3.1) == Some(2) && p3.1.responses == []
  {
    var cc := CommandComplete(Tag("SELECT 2"));
    var ms := [DataRow(b1), DataRow(b2), cc, ReadyForQuery(status)];
    PollNextDataRow(RowStream(st, ms, None), decode);
    assert ms[1..][0] == DataRow(b2) && ms[1..][1..] == [cc, ReadyForQuery(status)];
    PollNextDataRow(RowStream(st, ms[1..], None), decode);
    CompleteThenReady(st, status, decode);
  }

  /** A pull over a leading data row yields its decoded row and reads nothing more. */
  lemma PollNextDataRow(rs: RowStream, decode: RowDecoder)
    requires |rs.responses| > 0 && rs.responses[0].DataRow?
    requires decode(rs.statement, rs.responses[0].body).Ok?
    ensures PollNext(rs, decode) ==
      (Yield(decode(rs.statement, rs.responses[0].body).value), rs.(responses := rs.responses[1..]))
  {
  }

  lemma CompleteThenReady(st: Statement, status: char, decode: RowDecoder)
    ensures PollNext(RowStream(st, [CommandComplete(Tag("SELECT 2")), ReadyForQuery(status)], None), decode) ==
      (End, RowStream(st, [], Some(2)))
  {
    var cc := CommandComplete(Tag("SELECT 2"));
    SelectTagExample();
    var rs := RowStream(st, [cc, ReadyForQuery(status)], None);
    PollNextSkips(rs, decode);
    assert [cc, ReadyForQuery(status)][1..] == [ReadyForQuery(status)];
  }

  /**
   A portal fetch cut short by the row limit: the row before PortalSuspended
   comes out, then the stream ends at ReadyForQuery with no count reported.
   */
  lemma SuspendedPortalExample(st: Statement, b: RowBody, status: char, decode: RowDecoder)
    requires decode(st, b).Ok?
    ensures var rs := RowStream(st, [DataRow(b), PortalSuspended, ReadyForQuery(status)], None);
      var d := Drain(rs, decode);
      && d.rows == [decode(st, b).value] && d.last == End && RowsAffected(d.stream) == None
  {
    var body := [DataRow(b), PortalSuspended];
    DrainStopsAtFirstTerminal(st, body, ReadyForQuery(status), [], None, decode);
    assert body + [ReadyForQuery(status)] + [] == [DataRow(b), PortalSuspended, ReadyForQuery(status)];
    assert body[..1] == [DataRow(b)] && body[..1][..0] == [];
    assert DecodedRows(st, body[..1], decode) == [decode(st, b).value];
    assert LastTagText(body[..1]) == None;
  }

  /**
   An ErrorResponse before ReadyForQuery ends a full drain with a failure
   after the rows that preceded it; the replies after it are left unread.
   */
  lemma ErrorBeforeReadyExample(st: Statement, b: RowBody, e: ErrorBody, status: char, decode: RowDecoder)
    requires decode(st, b).Ok?
    ensures var rs := RowStream(st, [DataRow(b), ErrorResponse(e), ReadyForQuery(status)], None);
      var d := Drain(rs, decode);
      && d.rows == [decode(st, b).value] && d.last.Fail? && d.stream.responses == [ReadyForQuery(status)]
  {
    DrainStopsAtFirstTerminal(st, [DataRow(b)], ErrorResponse(e), [ReadyForQuery(status)], None, decode);
    assert [DataRow(b)] + [ErrorResponse(e)] + [ReadyForQuery(status)] == [DataRow(b), ErrorResponse(e), ReadyForQuery(status)];
    assert [DataRow(b)][..0] == [];
  }
}

=== FILE: statement.dfy ===
/**
 Prepared statements and their result columns, and the teardown rule of a
 shared statement: when the last handle goes away, a Close for the
 statement is handed to the connection if the connection still exists.
 */
module Statements {
  import opened Base
  import opened Messages

  /**
   Information about one result column. The datatype's destructors are the
   column's accessors: `name`, `type_`, and `columnId` and `tableOid` for
   `column_id` and `table_oid`.
   */
  datatype Column = Column(name: string, type_: PgType, columnId: Option<i16>, tableOid: Option<u32>)

  /** Column::new: a reported id or table oid of 0 means "absent". */
  function NewColumn(name: string, type_: PgType, columnId: i16, tableOid: u32): (c: Column)
    ensures c.name == name && c.type_ == type_
    ensures c.columnId == None <==> columnId == 0
    ensures c.columnId.Some? ==> c.columnId.value == columnId
    ensures c.tableOid == None <==> tableOid == 0
    ensures c.tableOid.Some? ==> c.tableOid.value == tableOid
  {
    Column(name,
           type_,
           if columnId == 0 then None else Some(columnId),
           if tableOid == 0 then None else Some(tableOid))
  }

  /** The immutable content of a statement; the empty name is the unnamed statement. */
  datatype Statement = Statement(name: string, params: seq<PgType>, columns: seq<Column>)

  /** Statement::unnamed: a throwaway descriptor for the unnamed server slot. */
  function Unnamed(params: seq<PgType>, columns: seq<Column>): (s: Statement)
    ensures s.name == "" && s.params == params && s.columns == columns
  {
    Statement("", params, columns)
  }

  /** An open server-side cursor: its name and the statement that produced it. */
  datatype Portal = Portal(name: string, statement: Statement)

  /**
   The connection as the statement's teardown sees it: whether it can still
   be reached through the non-owning reference, whether its request channel
   still accepts batches, and the batches handed to it so far.
   */
  datatype Client = Client(alive: bool, accepting: bool, outbox: seq<seq<Frontend>>)

  /** The batch that closes a statement on the server: Close('S', name) then Sync. */
  function CloseBatch(name: string): seq<Frontend> {
    [Close('S', name), Sync]
  }

  /** The connection's send path: a closed request channel refuses the batch. */
  function Send(c: Client, batch: seq<Frontend>): (r: (Client, Result<()>))
    ensures r.1.Ok? <==> c.accepting
    ensures r.1.Err? ==> r.1.error == Closed
    ensures r.0.outbox == if c.accepting then c.outbox + [batch] else c.outbox
    ensures r.0.alive == c.alive && r.0.accepting == c.accepting
  {
    if c.accepting then (c.(outbox := c.outbox + [batch]), Ok(())) else (c, Err(Closed))
  }

  /**
   StatementInner::drop: when the connection can still be reached, the close
   batch is sent and the outcome of sending is discarded. The result is a
   connection, never an error.
   */
  function DropInner(name: string, c: Client): (c': Client)
    ensures c'.alive == c.alive && c'.accepting == c.accepting
    ensures c.alive && c.accepting ==> c'.outbox == c.outbox + [CloseBatch(name)]
    ensures !(c.alive && c.accepting) ==> c'.outbox == c.outbox
  {
    if c.alive then
      var (sent, _) := Send(c, CloseBatch(name));
      sent
    else
      c
  }

  /** A shared statement: its content and the number of live handles to it. */
  datatype Handle = Handle(statement: Statement, refs: nat)

  /** Statement::new: one handle to a statement holding exactly the given fields. */
  function NewStatement(name: string, params: seq<PgType>, columns: seq<Column>): (h: Handle)
    ensures h.refs == 1
    ensures h.statement.name == name && h.statement.params == params && h.statement.columns == columns
  {
    Handle(Statement(name, params, columns), 1)
  }

  /** What can happen to a shared statement and its connection. */
  datatype Event = CloneHandle | DropHandle | ClientGone

  /** The number of live handles after an event. */
  function RefsAfter(refs: nat, e: Event): nat {
    match e
    case CloneHandle => refs + 1
    case DropHandle => if refs == 0 then 0 else refs - 1
    case ClientGone => refs
  }

  /**
   A trace the ownership rules permit: only a live handle can be cloned or
   dropped, so neither happens once the count has reached zero.
   */
  predicate ValidTrace(refs: nat, es: seq<Event>)
    decreases |es|
  {
    |es| == 0 ||
    ((es[0] != ClientGone ==> refs > 0) && ValidTrace(RefsAfter(refs, es[0]), es[1..]))
  }

  /** Applies events to a shared statement and its connection. */
  function Run(name: string, refs: nat, c: Client, es: seq<Event>): Client
    decreases |es|
  {
    if |es| == 0 then c
    else match es[0]
      case CloneHandle => Run(name, refs + 1, c, es[1..])
      case DropHandle =>
        if refs == 1 then Run(name, 0, DropInner(name, c), es[1..])
        else Run(name, RefsAfter(refs, DropHandle), c, es[1..])
      case ClientGone => Run(name, refs, c.(alive := false), es[1..])
  }

  /** The position of the event that drops the last handle, if any. */
  function ReleaseIndex(refs: nat, es: seq<Event>): (r: Option<nat>)
    ensures r.Some? ==> r.value < |es|
    decreases |es|
  {
    if |es| == 0 then None
    else if refs == 1 && es[0] == DropHandle then Some(0)
    else match ReleaseIndex(RefsAfter(refs, es[0]), es[1..])
      case Some(k) => Some(k + 1)
      case None => None
  }

  /**
   The teardown rule over a whole trace: exactly one close batch for the
   statement's name is handed to the connection, and only when the last
   handle is dropped while the connection is still reachable and accepting;
   otherwise nothing is sent. Nothing else is ever sent; `RunFlags` states
   what the events do to the connection's flags.
   */
  lemma {:induction false} RunClosesOnceAtRelease(name: string, refs: nat, c: Client, es: seq<Event>)
    requires ValidTrace(refs, es)
    ensures var out := Run(name, refs, c, es).outbox;
      match ReleaseIndex(refs, es)
      case Some(k) =>
        out == (if c.alive && c.accepting && ClientGone !in es[..k]
                then c.outbox + [CloseBatch(name)] else c.outbox)
      case None => out == c.outbox
    decreases |es|
  {
    if |es| == 0 {
    } else {
      var rest := es[1..];
      match es[0]
      case CloneHandle =>
        RunClosesOnceAtRelease(name, refs + 1, c, rest);
        NoReleaseOnClone(refs, rest);
        PrefixShift(es);
      case DropHandle =>
        if refs == 1 {
          NothingAfterRelease(name, DropInner(name, c), rest);
        } else {
          RunClosesOnceAtRelease(name, refs - 1, c, rest);
          PrefixShift(es);
        }
      case ClientGone =>
        RunClosesOnceAtRelease(name, refs, c.(alive := false), rest);
        if ReleaseIndex(refs, rest).Some? {
          var k := ReleaseIndex(refs, rest).value;
          assert es[..k + 1][0] == ClientGone;
        }
    }
  }

  /**
   Teardown never closes the request channel, and only the connection's own
   disappearance makes it unreachable.
   */
  lemma {:induction false} RunFlags(name: string, refs: nat, c: Client, es: seq<Event>)
    ensures Run(name, refs, c, es).accepting == c.accepting
    ensures Run(name, refs, c, es).alive <==> c.alive && ClientGone !in es
    decreases |es|
  {
    if |es| > 0 {
      assert es == [es[0]] + es[1..];
      match es[0]
      case CloneHandle => RunFlags(name, refs + 1, c, es[1..]);
      case DropHandle =>
        if refs == 1 {
          RunFlags(name, 0, DropInner(name, c), es[1..]);
        } else {
          RunFlags(name, RefsAfter(refs, DropHandle), c, es[1..]);
        }
      case ClientGone => RunFlags(name, refs, c.(alive := false), es[1..]);
    }
  }

  /** Shifting a prefix past the head event: the prefix is head plus shorter prefix. */
  lemma PrefixShift(es: seq<Event>)
    requires |es| > 0
    ensures forall k :: 0 <= k < |es| ==> (ClientGone in es[..k + 1] <==> es[0] == ClientGone || ClientGone in es[1..][..k])
  {
    forall k | 0 <= k < |es|
      ensures ClientGone in es[..k + 1] <==> es[0] == ClientGone || ClientGone in es[1..][..k]
    {
      assert es[..k + 1] == [es[0]] + es[1..][..k];
    }
  }

  /** A clone never brings the count to zero; the release point shifts by one. */
  lemma NoReleaseOnClone(refs: nat, rest: seq<Event>)
    ensures ReleaseIndex(refs, [CloneHandle] + rest) ==
      match ReleaseIndex(refs + 1, rest)
      case Some(k) => Some(k + 1)
      case None => None
  {
    assert ([CloneHandle] + rest)[1..] == rest;
  }

  /** Once every handle is gone, a valid trace sends nothing more. */
  lemma {:induction false} NothingAfterRelease(name: string, c: Client, es: seq<Event>)
    requires ValidTrace(0, es)
    ensures Run(name, 0, c, es).outbox == c.outbox
    ensures ReleaseIndex(0, es) == None
    decreases |es|
  {
    if |es| > 0 {
      NothingAfterRelease(name, c.(alive := false), es[1..]);
    }
  }
}
